=== FILE: README.md ===
# Siesta `NetworkRequest`: response handling and request lifecycle

A Dafny model of Siesta's `NetworkRequest` (Swift). It covers the two halves of its
response handling:

- **`interpretResponse`** classifies what the networking provider reported (an optional
  HTTP response, an optional body, an optional error) into a `ResponseInfo`, a
  success or failure marked new or reused. It consults the resource's latest data
  only to answer HTTP 304 Not Modified (section 4.1 of RFC 7232).
- **The request lifecycle** covers `start`, `cancel`, `repeated`,
  `addResponseCallback`, `responseReceived`, `transformResponse`,
  `broadcastResponse`, `shouldIgnoreResponse` and `isCompleted`. It is a
  functional state machine. Each dispatch-queue hop is a separate event:
  `StartCalled`, `CancelCalled`, `TransportCompleted`, `TransformCompleted` and
  `CallbackAdded`. The events are handled one at a time, in any order.

The central promise is that a request's terminal value is written at most once. A
late or duplicate transport completion, or a cancel racing a completion, never
causes a second broadcast. Two guards enforce this. One runs before
transformation (line 136) and one runs after it (line 189). The state records a
log of notifications and of callback deliveries, so "notified at most once" and
"every callback fires exactly once, in registration order" are provable
invariants (`Lifecycle.Inv`, `Callbacks.Valid`).

Files:

- `wrappers.dfy`: `Option` for Swift's optionals.
- `responses.dfy`: the response types and the cancellation value.
- `interpret.dfy`: `interpretResponse`.
- `callbacks.dfy`: `CallbackGroup`.
- `lifecycle.dfy`: the request state, its transitions and `Step`/`Run`.
- `properties.dfy`: lemmas over arbitrary event sequences.

Modelling choices:

- Swift orders `nil` below every value. So `nsres?.statusCode >= 400` and
  `nsres?.statusCode == 304` are both false when there is no HTTP response. An
  outcome with no response and no error is therefore a fresh success carrying the
  body, or empty data if there is none.
- `ResponseInfo(response:)` defaults `isNew` to true. The failures built at lines
  147 and 157 and the cancellation value are therefore new.
- A result is a cancellation when its cause is `RequestCancelled`, or when it is a
  transport error the provider flagged as a cancellation. Lines 219-220 describe
  the second case. `Error.swift` is not part of this model.
- The processor that `config.pipeline.makeProcessor` builds is a parameter
  `p: Response -> Response` of `Step` and `Run`.
- `start()` twice is a `fatalError`. It is modelled as the `Fatal` transition, which ends a run.
- `CallbackGroup.swift` is not part of this model. `Callbacks` models the behaviour
  `NetworkRequest` relies on:
  - registrations made before completion wait in a pending list;
  - registrations made after completion are replayed the stored value at once;
  - `notifyOfCompletion` demands that no value is stored yet.
- Failures are marked new, by the `ResponseInfo(response:)` default at lines 147
  and 157. So lines 175-178 run the processor on failures too, and the model does the same.

## Model

| member | source | states |
|---|---|---|
| Interpret.InterpretResponse | Source/Siesta/Request/NetworkRequest.swift:142-167 | a failure exactly when there is an error status, a transport error, or a 304 with nothing cached; not new exactly for a 304 answered from the cache, which is the cached entity itself; a fresh entity carries the response and the body (empty if absent); a transport failure keeps response, body and error; a cancellation exactly when the transport reported one |
| Interpret.FailureWhateverCached | Source/Siesta/Request/NetworkRequest.swift:145-148 | a status of 400 or above, or a transport error, always fails and the cached entity makes no difference |
| Interpret.CacheConsultedOnlyFor304 | Source/Siesta/Request/NetworkRequest.swift:145-166 | the result depends on the cached entity only for a 304 without a transport error |
| Interpret.NotModifiedReusesCache | Source/Siesta/Request/NetworkRequest.swift:149-154 | a 304 with a cached entity is a success of exactly that entity, not new |
| Interpret.NotModifiedWithoutCacheFails | Source/Siesta/Request/NetworkRequest.swift:155-161 | a 304 with nothing cached fails with cause NoLocalDataFor304; it is not a cancellation and differs from every transport failure |
| Interpret.OtherwiseFreshSuccess | Source/Siesta/Request/NetworkRequest.swift:163-166 | any other outcome is a new success; an absent body becomes empty data |
| Callbacks.NewGroup | Source/Siesta/Request/NetworkRequest.swift:31 | a new group holds no value, no registration and no delivery, and is valid |
| Callbacks.AddCallback | Source/Siesta/Request/NetworkRequest.swift:109-113 | a registration is recorded; before completion nothing fires; after completion the callback is replayed the stored value once, immediately; validity is kept |
| Callbacks.NotifyOfCompletion | Source/Siesta/Request/NetworkRequest.swift:196 | only callable while no value is stored; stores the value and fires every registered callback with it, in registration order |
| Callbacks.EveryCallbackFiresOnceInOrder | Source/Siesta/Request/NetworkRequest.swift:109-113 | whatever registrations surround the one completion, each callback fires exactly once, with the completion value, in registration order |
| Lifecycle.InitialSatisfiesInv | Source/Siesta/Request/NetworkRequest.swift:41-49 | a new request satisfies the lifecycle invariant, is not completed and has not called the transport |
| Lifecycle.IsCompletedMeansNotifiedOnce | Source/Siesta/Request/NetworkRequest.swift:33-37 | a request is completed exactly when one notification went out, and not completed exactly when none did |
| Lifecycle.ShouldIgnoreResponse | Source/Siesta/Request/NetworkRequest.swift:199-230 | ignores exactly when a value is stored; a non-cancellation stored value gives a warning, a stored cancellation with a non-cancellation incoming one gives a detail note, two cancellations are silent |
| Lifecycle.BroadcastResponse | Source/Siesta/Request/NetworkRequest.swift:185-197 | keeps every registered callback; with nothing stored, stores and notifies the value once, delivers it to every registered callback in registration order, completes progress and logs nothing; with a value stored, the callbacks and notifications stay unchanged and exactly the note shouldIgnoreResponse chose is appended to the earlier log; nothing else about the request changes (handle, flags, transformations in flight, builder); the invariant is kept |
| Lifecycle.Start | Source/Siesta/Request/NetworkRequest.swift:51-78 | fatal exactly when a transport handle is already present; after a cancel, no transport call and no handle, and the state differs only in the completed flag; otherwise the state differs only in the new handle and one more transport call; nothing is broadcast |
| Lifecycle.Cancel | Source/Siesta/Request/NetworkRequest.swift:80-98 | a completed request is unchanged; otherwise it is marked cancelled, its handle is asked to cancel, and the cancellation is stored, notified and delivered to every callback registered before the cancel, in order; registrations are kept; the completed flag, transformations in flight, diagnostics and builder are unchanged; the invariant is kept |
| Lifecycle.Repeated | Source/Siesta/Request/NetworkRequest.swift:100-105 | a new request from the same request builder, started once, not cancelled, not completed, with no callbacks and no transformation in flight |
| Lifecycle.AddResponseCallback | Source/Siesta/Request/NetworkRequest.swift:109-113 | registration adds the callback and never changes the terminal value or the notifications; only the callback group changes |
| Lifecycle.ResponseReceived | Source/Siesta/Request/NetworkRequest.swift:124-140 | always marks the transport finished; never broadcasts; passes the classified result to transformation only when no value is stored, logging nothing; otherwise appends exactly the note shouldIgnoreResponse chose for the classified response to the earlier log; nothing else changes |
| Lifecycle.TransformResponse | Source/Siesta/Request/NetworkRequest.swift:175-178 | keeps isNew; a result that is not new passes through unchanged; a new one is replaced by the processor's output |
| Lifecycle.TransformationDone | Source/Siesta/Request/NetworkRequest.swift:173-183 | exactly the finished job leaves the set in flight; its transformed result is broadcast if nothing is stored yet; otherwise the stored value and notifications stay, and the note shouldIgnoreResponse chose for the transformed result is logged; a job naming no transformation in flight changes nothing; registrations are kept; the handle, flags other than progress, and builder are unchanged |
| Lifecycle.Step | Source/Siesta/Request/NetworkRequest.swift:51-197 | an event is fatal exactly when start() finds a transport handle already present (a start after cancel sets none, so repeating it is not fatal); every event keeps the invariant, the request builder, and a finished transport flag; only a registration adds a callback and no event drops one; once a value is stored no event changes it or notifies again |
| LifecycleProperties.RunPreservesInv | Source/Siesta/Request/NetworkRequest.swift:30-37 | every state reached by any sequence of events keeps the lifecycle invariant |
| LifecycleProperties.TerminalValueNeverChanges | Source/Siesta/Request/NetworkRequest.swift:185-230 | once stored, the terminal value and the notification log never change under any later events |
| LifecycleProperties.AtMostOneNotification | Source/Siesta/Request/NetworkRequest.swift:185-197 | along any run of a new request at most one notification goes out and it is the stored value; once completed, every callback the run's registration events added has received exactly one delivery of the stored value, in registration order, and nothing else was delivered; before completion nothing was delivered |
| LifecycleProperties.RegistrationsFollowEvents | Source/Siesta/Request/NetworkRequest.swift:109-113 | along any run, the registered callbacks are exactly the earlier ones followed by those the run's registration events added, in order |
| LifecycleProperties.DescriptorNeverChanges | Source/Siesta/Request/NetworkRequest.swift:100-105 | along any run the request keeps the builder it was created with, so repeated() at any point rebuilds from that builder |
| LifecycleProperties.CancelledBeforeStartPersists | Source/Siesta/Request/NetworkRequest.swift:58-63 | a request cancelled before starting stays without a transport call and with the cancellation as its value, and no event is fatal |
| LifecycleProperties.CancelBeforeStartNeverTransports | Source/Siesta/Request/NetworkRequest.swift:58-63 | cancel before start: the transport is never called, nothing is fatal, and only the cancellation is delivered |
| LifecycleProperties.NetworkingStaysAfterStart | Source/Siesta/Request/NetworkRequest.swift:22 | once the transport handle is present it stays present |
| LifecycleProperties.StartTwiceIsFatal | Source/Siesta/Request/NetworkRequest.swift:55-56 | a second start after a successful start is fatal, whatever events came between |
| LifecycleProperties.NotModifiedDeliversCachedEntity | Source/Siesta/Request/NetworkRequest.swift:149-154 | a 304 answered from the cache is delivered as that entity, not new, without passing through the processor |
| LifecycleProperties.FreshResponseTransformedOnce | Source/Siesta/Request/NetworkRequest.swift:171-181 | a 2xx response with a body is delivered as the processor's output for it, applied once |
| LifecycleProperties.DuplicateCompletionIsDiscarded | Source/Siesta/Request/NetworkRequest.swift:199-216 | a second transport completion is not delivered, and it logs a warning when the first result was not a cancellation |
| LifecycleProperties.LateCompletionAfterCancel | Source/Siesta/Request/NetworkRequest.swift:217-227 | after start and cancel, a late completion is dropped at the first guard; the cancellation stands; a note is logged unless the late response is a cancellation |
| LifecycleProperties.CancelDuringTransformation | Source/Siesta/Request/NetworkRequest.swift:185-190 | a cancel that lands during transformation wins; the transformed result is dropped at the second guard, with a note unless it is a cancellation |
| LifecycleProperties.CancelAfterCompletionChangesNothing | Source/Siesta/Request/NetworkRequest.swift:84-88 | cancel on a completed request leaves the whole state unchanged |

## Left out

- Threading: the hops through `dispatch_async` are separate events. The
  `dispatch_assert_main_queue` checks are not modelled: every event runs on the
  one main queue by construction.
- `ProgressTracker`: it is time-based floating-point progress, and its source is
  not part of this model. `progressTracker.complete()` is reduced to the
  `progressCompleted` flag, which is set on broadcast. `progressTracker.start`
  and `onProgress` (lines 75-77, 115-119) are not modelled.
- `config` and `resource.service.networkingProvider` are lookups into other
  components. The networking provider is reduced to a call counter and a handle
  that can be asked to cancel. The configuration is reduced to the processor
  passed to `Step`/`Run`. The processor is assumed the same for every event of
  one request, although `config` is re-resolved on each access.
- `Configuration.swift`: only its `pipeline` is used here (line 171), reduced to the
  processor. `progressReportingInterval` (line 77) feeds the `ProgressTracker`, which
  is left out. The expiration and retry times, headers and decorators belong to
  other components.
- Entity timestamps are a clock reading and are left out. `Entity` keeps the
  response and the content.
- `debugLog` text and `debugDescription` (lines 234-241) are diagnostics only.
  Only the kind of note `shouldIgnoreResponse` logs is kept.
- Any sequence of events is accepted, including a transport completion before any
  start, which the dispatch queues cannot produce. The safety properties hold of
  every sequence, so they hold of the real ones too.
- Lifecycle.TransformationDone: a `TransformCompleted` event whose job index names
  no transformation in flight changes nothing. Such an event cannot arise from the
  dispatch queues.
- Lifecycle.Repeated: the new request is a separate value. "Cancelling one does
  not affect the other" therefore holds by construction and is not stated as a lemma.

=== FILE: callbacks.dfy ===
/**
  `CallbackGroup`: an at-most-once completion broadcaster. Callbacks added
  before completion wait in a pending list; callbacks added after it are
  replayed the stored value at once. Closures are represented by the
  identity they were registered under, and every invocation is recorded in
  a delivery log so that "each callback fires exactly once" can be stated.
 */
module Callbacks {
  import opened Wrappers

  /** The identity of one registered callback. */
  type CallbackId = nat

  /** One invocation of a callback with a value. */
  datatype Delivery<T> = Delivery(callback: CallbackId, value: T)

  datatype CallbackGroup<T> = CallbackGroup(
    pending: seq<CallbackId>,    // registered before completion, not yet fired
    completedValue: Option<T>,   // the value stored by notifyOfCompletion
    registered: seq<CallbackId>, // every registration, in order
    delivered: seq<Delivery<T>>) // every invocation, in order

  /** Each of `ids`, in order, invoked with `value`. */
  function DeliveriesTo<T>(ids: seq<CallbackId>, value: T): seq<Delivery<T>> {
    seq(|ids|, i requires 0 <= i < |ids| => Delivery(ids[i], value))
  }

  /**
    Before completion every registered callback is pending and none has
    fired; after it, none is pending and every registered callback has
    fired exactly once with the stored value, in registration order.
   */
  ghost predicate Valid<T>(g: CallbackGroup<T>) {
    match g.completedValue
    case None => g.pending == g.registered && g.delivered == []
    case Some(v) => g.pending == [] && g.delivered == DeliveriesTo(g.registered, v)
  }

  function NewGroup<T>(): (g: CallbackGroup<T>)
    ensures Valid(g)
    ensures g.completedValue.None? && g.registered == [] && g.delivered == []
  {
    CallbackGroup([], None, [], [])
  }

  function AddCallback<T>(g: CallbackGroup<T>, id: CallbackId): (r: CallbackGroup<T>)
    ensures Valid(g) ==> Valid(r)
    ensures r.registered == g.registered + [id]
    ensures r.completedValue == g.completedValue
    // after completion the new callback is replayed the stored value immediately, once
    ensures g.completedValue.Some? ==>
              r.delivered == g.delivered + [Delivery(id, g.completedValue.value)]
    // before completion nothing fires
    ensures g.completedValue.None? ==> r.delivered == g.delivered && id in r.pending
  {
    match g.completedValue
    case Some(v) =>
      g.(registered := g.registered + [id], delivered := g.delivered + [Delivery(id, v)])
    case None =>
      g.(pending := g.pending + [id], registered := g.registered + [id])
  }

  /** Stores `value` and fires every pending callback with it; callers guarantee a single call. */
  function NotifyOfCompletion<T>(g: CallbackGroup<T>, value: T): (r: CallbackGroup<T>)
    requires g.completedValue.None?
    ensures Valid(g) ==> Valid(r)
    ensures r.completedValue == Some(value)
    ensures r.registered == g.registered
    ensures Valid(g) ==> r.delivered == DeliveriesTo(g.registered, value)
  {
    CallbackGroup([], Some(value), g.registered, g.delivered + DeliveriesTo(g.pending, value))
  }

  /** Registers each of `ids` in turn. */
  function AddAll<T>(g: CallbackGroup<T>, ids: seq<CallbackId>): (r: CallbackGroup<T>)
    ensures Valid(g) ==> Valid(r)
    ensures r.registered == g.registered + ids
    ensures r.completedValue == g.completedValue
    decreases |ids|
  {
    if ids == [] then g
    else
      assert g.registered + [ids[0]] + ids[1..] == g.registered + ids;
      AddAll(AddCallback(g, ids[0]), ids[1..])
  }

  /**
    Whatever the interleaving of registrations around the one completion,
    every callback fires exactly once, with the completion value, in
    registration order, and none fires twice.
   */
  lemma EveryCallbackFiresOnceInOrder<T>(before: seq<CallbackId>, value: T, after: seq<CallbackId>)
    ensures var g := AddAll(NotifyOfCompletion(AddAll(NewGroup(), before), value), after);
      && g.completedValue == Some(value)
      && |g.delivered| == |before| + |after|
      && (forall i :: 0 <= i < |before| ==> g.delivered[i] == Delivery(before[i], value))
      && (forall j :: 0 <= j < |after| ==> g.delivered[|before| + j] == Delivery(after[j], value))
  {
  }
}

=== FILE: interpret.dfy ===
/**
  `interpretResponse`: classifies what the transport reported into a
  success or failure, consulting the resource's latest data only to answer
  an HTTP 304 "Not Modified" (section 4.1 of RFC 7232).
 */
module Interpret {
  import opened Wrappers
  import opened Responses

  /**
    `nsres?.statusCode >= 400`. Swift orders `nil` below every value, so the
    test is false when there is no HTTP response at all.
   */
  predicate IsErrorStatus(response: Option<HttpResponse>) {
    response.Some? && response.value.statusCode >= 400
  }

  /** `nsres?.statusCode == 304`, false when there is no HTTP response. */
  predicate IsNotModified(response: Option<HttpResponse>) {
    response.Some? && response.value.statusCode == 304
  }

  /** The outcome the first rule turns into a failure: an error status or a transport error. */
  predicate IsFailedOutcome(raw: RawOutcome) {
    IsErrorStatus(raw.response) || raw.error.Some?
  }

  function InterpretResponse(raw: RawOutcome, latestData: Option<Entity>): (r: ResponseInfo)
    // a failure exactly when the transport failed, or a 304 found nothing to reuse
    ensures r.response.Failure? <==>
              IsFailedOutcome(raw) || (IsNotModified(raw.response) && latestData.None?)
    // only a 304 answered from the cache is not new
    ensures !r.isNew <==>
              !IsFailedOutcome(raw) && IsNotModified(raw.response) && latestData.Some?
    ensures !r.isNew ==> r.response == Success(latestData.value)
    // a fresh entity keeps the response and the body, an absent body read as empty data
    ensures r.response.Success? && r.isNew ==>
              r.response.entity == Entity(raw.response, Data(raw.body.GetOr([])))
    // a transport failure keeps everything the transport reported
    ensures IsFailedOutcome(raw) ==>
              r.response.error == ErrorInfo(raw.response, raw.body, None, Underlying(raw.error))
    // classification never invents a cancellation
    ensures IsCancellation(r.response) <==> raw.error.Some? && raw.error.value.cancelled
  {
    if IsFailedOutcome(raw) then
      ResponseInfo(Failure(ErrorInfo(raw.response, raw.body, None, Underlying(raw.error))), true)
    else if IsNotModified(raw.response) then
      match latestData
      case Some(entity) => ResponseInfo(Success(entity), false)
      case None =>
        ResponseInfo(Failure(ErrorInfo(None, None, Some("No data available"), NoLocalDataFor304)), true)
    else
      ResponseInfo(Success(Entity(raw.response, Data(raw.body.GetOr([])))), true)
  }

  /** An error status or a transport error fails whatever is cached. */
  lemma FailureWhateverCached(raw: RawOutcome, cached1: Option<Entity>, cached2: Option<Entity>)
    requires IsFailedOutcome(raw)
    ensures InterpretResponse(raw, cached1).response.Failure?
    ensures InterpretResponse(raw, cached1) == InterpretResponse(raw, cached2)
  {
  }

  /** The cached entity is consulted only to answer a 304. */
  lemma CacheConsultedOnlyFor304(raw: RawOutcome, cached1: Option<Entity>, cached2: Option<Entity>)
    requires !IsNotModified(raw.response) || IsFailedOutcome(raw)
    ensures InterpretResponse(raw, cached1) == InterpretResponse(raw, cached2)
  {
  }

  /** A 304 with cached data reuses that entity verbatim and marks it as not new. */
  lemma NotModifiedReusesCache(raw: RawOutcome, cached: Entity)
    requires IsNotModified(raw.response) && raw.error.None?
    ensures InterpretResponse(raw, Some(cached)) == ResponseInfo(Success(cached), false)
  {
  }

  /**
    A 304 with nothing cached is its own kind of failure: not a cancellation,
    and distinguishable from every transport failure by its cause.
   */
  lemma NotModifiedWithoutCacheFails(raw: RawOutcome, other: RawOutcome, cached: Option<Entity>)
    requires IsNotModified(raw.response) && raw.error.None?
    requires IsFailedOutcome(other)
    ensures InterpretResponse(raw, None).response.Failure?
    ensures InterpretResponse(raw, None).response.error.cause == NoLocalDataFor304
    ensures !IsCancellation(InterpretResponse(raw, None).response)
    ensures InterpretResponse(raw, None) != InterpretResponse(other, cached)
  {
  }

  /** Every other outcome (including one with no HTTP response and no error) is a fresh success. */
  lemma OtherwiseFreshSuccess(raw: RawOutcome, cached: Option<Entity>)
    requires !IsFailedOutcome(raw) && !IsNotModified(raw.response)
    ensures InterpretResponse(raw, cached).isNew
    ensures InterpretResponse(raw, cached).response.Success?
    ensures raw.body.None? ==> InterpretResponse(raw, cached).response.entity.content == Data([])
  {
  }
}

=== FILE: lifecycle.dfy ===
/**
  The lifecycle of one `NetworkRequest`: start, cancel, transport
  completion, background transformation and broadcast. Each hop between
  dispatch queues is a separate event; the events are handled one at a time
  on the main queue. Any sequence of events is accepted, which is more than
  the queues can produce (a transport completion before any start, for
  one), so properties proved of every sequence hold of the real ones.
 */
module Lifecycle {
  import opened Wrappers
  import opened Responses
  import Interpret
  import Callbacks

  /**
    The identity of the `requestBuilder` closure, which `repeated()` runs
    again to build its new request; the fields name what the builder builds.
   */
  datatype Descriptor = Descriptor(httpMethod: string, url: string)

  /** The transport handle `start()` obtains; only whether it was asked to cancel is observable. */
  datatype Networking = Networking(cancelRequested: bool)

  /** The log lines `shouldIgnoreResponse` writes when it discards a response. */
  datatype Diagnostic =
    | AlreadyCompletedWarning(existing: Response, incoming: Response) // a transport contract violation
    | IgnoredAfterCancellation(incoming: Response)                    // an expected race with cancel()

  /** `shouldIgnoreResponse`'s verdict together with the line it logs, if any. */
  datatype IgnoreDecision = Deliver | Ignore(note: Option<Diagnostic>)

  /** The processor `config.pipeline.makeProcessor` builds, applied to the raw response. */
  type Processor = Response -> Response

  datatype RequestState = RequestState(
    descriptor: Descriptor,
    networking: Option<Networking>,           // present only after a start() that reached the transport
    wasCancelled: bool,
    underlyingNetworkRequestCompleted: bool,
    progressCompleted: bool,                  // progressTracker.complete() has run
    responseCallbacks: Callbacks.CallbackGroup<ResponseInfo>,
    inTransformation: seq<ResponseInfo>,      // raw results handed to the background queue
    transportCalls: nat,                      // how often the networking provider was asked to start
    notifications: seq<ResponseInfo>,         // every notifyOfCompletion, in order
    diagnostics: seq<Diagnostic>)

  /** `start()` twice is a `fatalError`, which ends the program. */
  datatype Transition = Next(state: RequestState) | Fatal(message: string)

  datatype Event =
    | StartCalled
    | CancelCalled
    | TransportCompleted(raw: RawOutcome, latestData: Option<Entity>)  // the transport callback, back on main
    | TransformCompleted(job: nat)              // a background transformation, back on main
    | CallbackAdded(callback: Callbacks.CallbackId)

  /** A freshly constructed request. */
  function Initial(d: Descriptor): RequestState {
    RequestState(d, None, false, false, false, Callbacks.NewGroup(), [], 0, [], [])
  }

  predicate IsCompleted(s: RequestState) {
    s.responseCallbacks.completedValue.Some?
  }

  /**
    The invariant every reachable state keeps. The terminal value is
    written at most once, and it is what was notified. Progress is complete
    exactly when the request is, and a cancelled request always holds the
    cancellation value. The transport is started at most once.
   */
  ghost predicate Inv(s: RequestState) {
    && Callbacks.Valid(s.responseCallbacks)
    && (match s.responseCallbacks.completedValue
        case None => s.notifications == []
        case Some(v) => s.notifications == [v])
    && (s.progressCompleted <==> IsCompleted(s))
    && (s.wasCancelled ==> s.responseCallbacks.completedValue == Some(Cancellation))
    && s.transportCalls == (if s.networking.Some? then 1 else 0)
    && (s.networking.Some? && s.networking.value.cancelRequested ==> s.wasCancelled)
  }

  lemma InitialSatisfiesInv(d: Descriptor)
    ensures Inv(Initial(d))
    ensures !IsCompleted(Initial(d)) && Initial(d).transportCalls == 0
  {
  }

  /** `isCompleted`: a terminal value is stored, which happens exactly when one notification went out. */
  lemma IsCompletedMeansNotifiedOnce(s: RequestState)
    requires Inv(s)
    ensures IsCompleted(s) <==> |s.notifications| == 1
    ensures !IsCompleted(s) <==> s.notifications == []
  {
  }

  /** `shouldIgnoreResponse`: deliver only while no value is stored; otherwise classify the discarded one. */
  function ShouldIgnoreResponse(s: RequestState, incoming: Response): (r: IgnoreDecision)
    ensures r.Deliver? <==> !IsCompleted(s)
    ensures r.Ignore? ==>
      var existing := s.responseCallbacks.completedValue.value.response;
      && (!IsCancellation(existing) ==> r.note == Some(AlreadyCompletedWarning(existing, incoming)))
      && (IsCancellation(existing) && !IsCancellation(incoming) ==>
            r.note == Some(IgnoredAfterCancellation(incoming)))
      && (IsCancellation(existing) && IsCancellation(incoming) ==> r.note == None)
  {
    match s.responseCallbacks.completedValue
    case None => Deliver
    case Some(info) =>
      if !IsCancellation(info.response) then
        Ignore(Some(AlreadyCompletedWarning(info.response, incoming)))
      else if !IsCancellation(incoming) then
        Ignore(Some(IgnoredAfterCancellation(incoming)))
      else
        Ignore(None)
  }

  function NoteLog(note: Option<Diagnostic>): seq<Diagnostic> {
    match note
    case Some(d) => [d]
    case None => []
  }

  /**
    `broadcastResponse`: the second guard. Stores and notifies `info` if
    nothing is stored yet; otherwise leaves the stored value alone and only
    logs why `info` was dropped.
   */
  function BroadcastResponse(s: RequestState, info: ResponseInfo): (r: RequestState)
    ensures Inv(s) ==> Inv(r)
    ensures !IsCompleted(s) ==>
      && r.responseCallbacks.completedValue == Some(info)
      && r.notifications == s.notifications + [info]
      && r.progressCompleted
    ensures IsCompleted(s) ==>
      && r.responseCallbacks == s.responseCallbacks
      && r.notifications == s.notifications
      && r.diagnostics == s.diagnostics + NoteLog(ShouldIgnoreResponse(s, info.response).note)
    ensures !IsCompleted(s) ==> r.diagnostics == s.diagnostics
    // every callback registered so far is kept, and so receives the stored value
    ensures r.responseCallbacks.registered == s.responseCallbacks.registered
    ensures Inv(s) && !IsCompleted(s) ==>
      r.responseCallbacks.delivered == Callbacks.DeliveriesTo(s.responseCallbacks.registered, info)
    // nothing else about the request changes
    ensures r == s.(progressCompleted := r.progressCompleted, responseCallbacks := r.responseCallbacks,
                    notifications := r.notifications, diagnostics := r.diagnostics)
  {
    match ShouldIgnoreResponse(s, info.response)
    case Ignore(note) =>
      s.(diagnostics := s.diagnostics + NoteLog(note))
    case Deliver =>
      s.(progressCompleted := true,
         responseCallbacks := Callbacks.NotifyOfCompletion(s.responseCallbacks, info),
         notifications := s.notifications + [info])
  }

  /** `start()`. */
  function Start(s: RequestState): (r: Transition)
    // starting twice is fatal, and nothing else is
    ensures r.Fatal? <==> s.networking.Some?
    // cancellation pre-empts start: no transport call, no handle, only the completion flag
    ensures s.networking.None? && s.wasCancelled ==>
      r.Next? && r.state == s.(underlyingNetworkRequestCompleted := true)
    // otherwise the transport is started exactly once and nothing is broadcast
    ensures s.networking.None? && !s.wasCancelled ==>
      && r.Next?
      && r.state.networking == Some(Networking(false))
      && r.state.transportCalls == s.transportCalls + 1
      && r.state == s.(networking := Some(Networking(false)), transportCalls := s.transportCalls + 1)
    ensures Inv(s) && r.Next? ==> Inv(r.state)
  {
    if s.networking.Some? then
      Fatal("NetworkRequest.start() called twice")
    else if s.wasCancelled then
      Next(s.(underlyingNetworkRequestCompleted := true))
    else
      Next(s.(networking := Some(Networking(false)), transportCalls := s.transportCalls + 1))
  }

  /** `networking?.cancel()`. */
  function CancelHandle(n: Option<Networking>): Option<Networking> {
    match n
    case Some(_) => Some(Networking(true))
    case None => None
  }

  /** `cancel()`. */
  function Cancel(s: RequestState): (r: RequestState)
    // a completed request is left exactly as it was
    ensures IsCompleted(s) ==> r == s
    // otherwise it is cancelled, its handle is asked to cancel, and the cancellation is broadcast
    ensures !IsCompleted(s) ==>
      && r.wasCancelled
      && r.responseCallbacks.completedValue == Some(Cancellation)
      && r.notifications == s.notifications + [Cancellation]
      && (s.networking.Some? ==> r.networking == Some(Networking(true)))
      && r.transportCalls == s.transportCalls
    // the callbacks registered before the cancel are kept and receive the cancellation
    ensures r.responseCallbacks.registered == s.responseCallbacks.registered
    ensures Inv(s) && !IsCompleted(s) ==>
      r.responseCallbacks.delivered == Callbacks.DeliveriesTo(s.responseCallbacks.registered, Cancellation)
    // nothing else about the request changes
    ensures r == s.(networking := r.networking, wasCancelled := r.wasCancelled,
                    progressCompleted := r.progressCompleted, responseCallbacks := r.responseCallbacks,
                    notifications := r.notifications)
    ensures Inv(s) ==> Inv(r)
  {
    if IsCompleted(s) then s
    else BroadcastResponse(s.(networking := CancelHandle(s.networking), wasCancelled := true), Cancellation)
  }

  /** `repeated()`: a brand-new request for the same descriptor, already started. */
  function Repeated(s: RequestState): (r: RequestState)
    ensures Inv(r)
    ensures r.descriptor == s.descriptor
    ensures !r.wasCancelled && !IsCompleted(r) && r.notifications == []
    ensures r.responseCallbacks.registered == [] && r.inTransformation == []
    ensures r.networking == Some(Networking(false)) && r.transportCalls == 1
  {
    Start(Initial(s.descriptor)).state
  }

  /** `addResponseCallback`: registration never changes the terminal value. */
  function AddResponseCallback(s: RequestState, id: Callbacks.CallbackId): (r: RequestState)
    ensures r.responseCallbacks.completedValue == s.responseCallbacks.completedValue
    ensures r.responseCallbacks.registered == s.responseCallbacks.registered + [id]
    ensures r.notifications == s.notifications
    // only the callback group changes
    ensures r == s.(responseCallbacks := r.responseCallbacks)
    ensures Inv(s) ==> Inv(r)
  {
    s.(responseCallbacks := Callbacks.AddCallback(s.responseCallbacks, id))
  }

  /**
    `responseReceived`: the transport's completion, back on the main queue.
    Marks the transport finished, classifies the outcome, and, if no value
    is stored yet (the first guard), hands it to the background queue.
   */
  function ResponseReceived(s: RequestState, raw: RawOutcome, latestData: Option<Entity>): (r: RequestState)
    ensures r.underlyingNetworkRequestCompleted
    // a response is never broadcast directly from here
    ensures r.responseCallbacks == s.responseCallbacks && r.notifications == s.notifications
    ensures !IsCompleted(s) ==>
      r.inTransformation == s.inTransformation + [Interpret.InterpretResponse(raw, latestData)]
    ensures IsCompleted(s) ==> r.inTransformation == s.inTransformation
    // the first guard logs the note shouldIgnoreResponse chose, and nothing else
    ensures IsCompleted(s) ==>
      r.diagnostics == s.diagnostics +
        NoteLog(ShouldIgnoreResponse(s, Interpret.InterpretResponse(raw, latestData).response).note)
    ensures !IsCompleted(s) ==> r.diagnostics == s.diagnostics
    // nothing else about the request changes
    ensures r == s.(underlyingNetworkRequestCompleted := true,
                    inTransformation := r.inTransformation, diagnostics := r.diagnostics)
    ensures Inv(s) ==> Inv(r)
  {
    var s1 := s.(underlyingNetworkRequestCompleted := true);
    var info := Interpret.InterpretResponse(raw, latestData);
    match ShouldIgnoreResponse(s1, info.response)
    case Ignore(note) => s1.(diagnostics := s1.diagnostics + NoteLog(note))
    case Deliver => s1.(inTransformation := s1.inTransformation + [info])
  }

  /**
    The background half of `transformResponse`: only a new result goes
    through the processor; a reused cached entity passes through untouched.
   */
  function TransformResponse(p: Processor, raw: ResponseInfo): (r: ResponseInfo)
    ensures r.isNew == raw.isNew
    ensures !raw.isNew ==> r == raw
    ensures raw.isNew ==> r.response == p(raw.response)
  {
    if raw.isNew then ResponseInfo(p(raw.response), true) else raw
  }

  function RemoveAt<T>(xs: seq<T>, i: nat): seq<T>
    requires i < |xs|
  {
    xs[..i] + xs[i + 1..]
  }

  /** A background transformation delivers its result to `broadcastResponse` on the main queue. */
  function TransformationDone(p: Processor, s: RequestState, job: nat): (r: RequestState)
    ensures job < |s.inTransformation| && !IsCompleted(s) ==>
      && r.responseCallbacks.completedValue == Some(TransformResponse(p, s.inTransformation[job]))
      && r.notifications == s.notifications + [TransformResponse(p, s.inTransformation[job])]
    ensures IsCompleted(s) ==>
      r.responseCallbacks == s.responseCallbacks && r.notifications == s.notifications
    // exactly the finished job leaves the set of transformations in flight
    ensures job < |s.inTransformation| ==> r.inTransformation == RemoveAt(s.inTransformation, job)
    // the second guard logs the note shouldIgnoreResponse chose for the transformed result
    ensures job < |s.inTransformation| && IsCompleted(s) ==>
      r.diagnostics == s.diagnostics +
        NoteLog(ShouldIgnoreResponse(s, TransformResponse(p, s.inTransformation[job]).response).note)
    // a job that names no transformation in flight changes nothing
    ensures job >= |s.inTransformation| ==> r == s
    ensures r.responseCallbacks.registered == s.responseCallbacks.registered
    // nothing else about the request changes
    ensures r == s.(progressCompleted := r.progressCompleted, responseCallbacks := r.responseCallbacks,
                    inTransformation := r.inTransformation, notifications := r.notifications,
                    diagnostics := r.diagnostics)
    ensures Inv(s) ==> Inv(r)
  {
    if job < |s.inTransformation| then
      var info := s.inTransformation[job];
      BroadcastResponse(s.(inTransformation := RemoveAt(s.inTransformation, job)), TransformResponse(p, info))
    else
      s
  }

  /** One event handled on the main queue. */
  function Step(p: Processor, s: RequestState, e: Event): (r: Transition)
    ensures r.Fatal? <==> e.StartCalled? && s.networking.Some?
    ensures Inv(s) && r.Next? ==> Inv(r.state)
    // the request builder is fixed for the request's lifetime, and a finished transport stays finished
    ensures r.Next? ==> r.state.descriptor == s.descriptor
    ensures r.Next? && s.underlyingNetworkRequestCompleted ==> r.state.underlyingNetworkRequestCompleted
    // only a registration adds a callback, and no event drops one
    ensures r.Next? ==>
      r.state.responseCallbacks.registered ==
        s.responseCallbacks.registered + (if e.CallbackAdded? then [e.callback] else [])
    // once a value is stored, no event changes it or notifies again
    ensures IsCompleted(s) && r.Next? ==>
      && r.state.responseCallbacks.completedValue == s.responseCallbacks.completedValue
      && r.state.notifications == s.notifications
  {
    match e
    case StartCalled => Start(s)
    case CancelCalled => Next(Cancel(s))
    case TransportCompleted(raw, latestData) => Next(ResponseReceived(s, raw, latestData))
    case TransformCompleted(job) => Next(TransformationDone(p, s, job))
    case CallbackAdded(id) => Next(AddResponseCallback(s, id))
  }

  /** A sequence of events handled in order; a fatal error ends the run. */
  function Run(p: Processor, s: RequestState, events: seq<Event>): Transition
    decreases |events|
  {
    if events == [] then Next(s)
    else
      match Step(p, s, events[0])
      case Fatal(m) => Fatal(m)
      case Next(t) => Run(p, t, events[1..])
  }
}

=== FILE: properties.dfy ===
/**
  Properties of whole runs: any sequence of events, from any state or from
  a freshly built request.
 */
module LifecycleProperties {
  import opened Wrappers
  import opened Responses
  import Interpret
  import opened Lifecycle
  import Callbacks

  /** Every state a run reaches keeps the invariant. */
  lemma {:induction false} RunPreservesInv(p: Processor, s: RequestState, events: seq<Event>)
    requires Inv(s)
    ensures Run(p, s, events).Next? ==> Inv(Run(p, s, events).state)
    decreases |events|
  {
    if events != [] {
      var t := Step(p, s, events[0]);
      if t.Next? {
        RunPreservesInv(p, t.state, events[1..]);
      }
    }
  }

  /**
    The single terminal write: once a value is stored, no later start,
    cancel, transport completion, transformation or registration changes it
    or notifies a second time.
   */
  lemma {:induction false} TerminalValueNeverChanges(p: Processor, s: RequestState, events: seq<Event>)
    requires IsCompleted(s)
    ensures Run(p, s, events).Next? ==>
      && Run(p, s, events).state.responseCallbacks.completedValue == s.responseCallbacks.completedValue
      && Run(p, s, events).state.notifications == s.notifications
    decreases |events|
  {
    if events != [] {
      var t := Step(p, s, events[0]);
      if t.Next? {
        TerminalValueNeverChanges(p, t.state, events[1..]);
      }
    }
  }

  /** The callbacks the `CallbackAdded` events of a run register, in order. */
  function Ids(events: seq<Event>): seq<Callbacks.CallbackId>
    decreases |events|
  {
    if events == [] then []
    else (if events[0].CallbackAdded? then [events[0].callback] else []) + Ids(events[1..])
  }

  /** The registrations a state records are exactly those the run's events made, in order. */
  lemma {:induction false} RegistrationsFollowEvents(p: Processor, s: RequestState, events: seq<Event>)
    ensures Run(p, s, events).Next? ==>
      Run(p, s, events).state.responseCallbacks.registered == s.responseCallbacks.registered + Ids(events)
    decreases |events|
  {
    if events != [] {
      var t := Step(p, s, events[0]);
      if t.Next? {
        RegistrationsFollowEvents(p, t.state, events[1..]);
      }
    }
  }

  /** The request builder a request was created with is the one it keeps, along any run. */
  lemma {:induction false} DescriptorNeverChanges(p: Processor, s: RequestState, events: seq<Event>)
    ensures Run(p, s, events).Next? ==> Run(p, s, events).state.descriptor == s.descriptor
    // so repeated() at any point rebuilds from the original builder
    ensures Run(p, s, events).Next? ==> Repeated(Run(p, s, events).state).descriptor == s.descriptor
    decreases |events|
  {
    if events != [] {
      var t := Step(p, s, events[0]);
      if t.Next? {
        DescriptorNeverChanges(p, t.state, events[1..]);
      }
    }
  }

  /**
    Notified at most once: along any run of a new request, at most one
    notification goes out, and it is the stored terminal value. Every
    callback the run registered has fired exactly once with it, in
    registration order.
   */
  lemma AtMostOneNotification(p: Processor, d: Descriptor, events: seq<Event>)
    ensures Run(p, Initial(d), events).Next? ==>
      var t := Run(p, Initial(d), events).state;
      && |t.notifications| <= 1
      && (IsCompleted(t) ==> t.notifications == [t.responseCallbacks.completedValue.value])
      && (IsCompleted(t) ==>
            t.responseCallbacks.delivered ==
              Callbacks.DeliveriesTo(Ids(events), t.responseCallbacks.completedValue.value))
      && (!IsCompleted(t) ==> t.responseCallbacks.delivered == [])
  {
    InitialSatisfiesInv(d);
    RunPreservesInv(p, Initial(d), events);
    RegistrationsFollowEvents(p, Initial(d), events);
  }

  /** The state cancel-before-start leaves: cancelled, completed by the cancellation, transport untouched. */
  ghost predicate CancelledBeforeStart(s: RequestState) {
    && s.wasCancelled
    && s.networking.None?
    && s.transportCalls == 0
    && s.responseCallbacks.completedValue == Some(Cancellation)
    && s.notifications == [Cancellation]
  }

  lemma {:induction false} CancelledBeforeStartPersists(p: Processor, s: RequestState, events: seq<Event>)
    requires CancelledBeforeStart(s)
    ensures Run(p, s, events).Next?
    ensures CancelledBeforeStart(Run(p, s, events).state)
    decreases |events|
  {
    if events != [] {
      var t := Step(p, s, events[0]);
      assert t.Next?;
      TerminalValueNeverChanges(p, s, events[..1]);
      assert events[..1] == [events[0]];
      assert Run(p, s, [events[0]]) == t;
      CancelledBeforeStartPersists(p, t.state, events[1..]);
    }
  }

  /**
    Cancellation pre-empts start: a request cancelled before it was started
    never reaches the transport, no later event is fatal, and the only
    result ever delivered is the cancellation.
   */
  lemma CancelBeforeStartNeverTransports(p: Processor, d: Descriptor, events: seq<Event>)
    ensures Run(p, Initial(d), [CancelCalled] + events).Next?
    ensures var t := Run(p, Initial(d), [CancelCalled] + events).state;
      && t.transportCalls == 0
      && t.networking.None?
      && t.notifications == [Cancellation]
  {
    var s1 := Cancel(Initial(d));
    assert CancelledBeforeStart(s1);
    assert ([CancelCalled] + events)[1..] == events;
    CancelledBeforeStartPersists(p, s1, events);
  }

  /** Calling `start()` again on a request that reached the transport is fatal, whatever happened in between. */
  lemma StartTwiceIsFatal(p: Processor, d: Descriptor, between: seq<Event>)
    requires Run(p, Start(Initial(d)).state, between).Next?
    ensures Run(p, Run(p, Start(Initial(d)).state, between).state, [StartCalled]).Fatal?
  {
    NetworkingStaysAfterStart(p, Start(Initial(d)).state, between);
  }

  lemma {:induction false} NetworkingStaysAfterStart(p: Processor, s: RequestState, events: seq<Event>)
    requires s.networking.Some?
    requires Run(p, s, events).Next?
    ensures Run(p, s, events).state.networking.Some?
    decreases |events|
  {
    if events != [] {
      var t := Step(p, s, events[0]);
      if t.Next? {
        NetworkingStaysAfterStart(p, t.state, events[1..]);
      }
    }
  }

  /** The response a 304 with a cached entity ends up delivering: that entity, not new, untouched by the processor. */
  lemma NotModifiedDeliversCachedEntity(p: Processor, d: Descriptor, raw: RawOutcome, cached: Entity)
    requires Interpret.IsNotModified(raw.response) && raw.error.None?
    ensures var r := Run(p, Initial(d), [StartCalled, TransportCompleted(raw, Some(cached)), TransformCompleted(0)]);
      && r.Next?
      && r.state.notifications == [ResponseInfo(Success(cached), false)]
  {
    var s1 := Start(Initial(d)).state;
    var s2 := ResponseReceived(s1, raw, Some(cached));
    var s3 := TransformationDone(p, s2, 0);
    assert s3.notifications == [ResponseInfo(Success(cached), false)];
    assert Run(p, s2, [TransformCompleted(0)]) == Next(s3);
    assert Run(p, s1, [TransportCompleted(raw, Some(cached)), TransformCompleted(0)]) == Next(s3);
  }

  /** A fresh response is transformed by the processor exactly once before it is delivered. */
  lemma FreshResponseTransformedOnce(p: Processor, d: Descriptor, code: int, headers: map<string, string>, body: Bytes)
    requires 200 <= code < 300
    ensures var raw := RawOutcome(Some(HttpResponse(code, headers)), Some(body), None);
      var r := Run(p, Initial(d), [StartCalled, TransportCompleted(raw, None), TransformCompleted(0)]);
      && r.Next?
      && r.state.notifications ==
           [ResponseInfo(p(Success(Entity(Some(HttpResponse(code, headers)), Data(body)))), true)]
  {
    var raw := RawOutcome(Some(HttpResponse(code, headers)), Some(body), None);
    var s1 := Start(Initial(d)).state;
    var s2 := ResponseReceived(s1, raw, None);
    var s3 := TransformationDone(p, s2, 0);
    assert Run(p, s2, [TransformCompleted(0)]) == Next(s3);
    assert Run(p, s1, [TransportCompleted(raw, None), TransformCompleted(0)]) == Next(s3);
  }

  /**
    A misbehaving transport that completes twice: only the first result is
    delivered, and the second is discarded with a warning unless the first
    was itself a cancellation.
   */
  lemma DuplicateCompletionIsDiscarded(p: Processor, d: Descriptor,
                                       raw1: RawOutcome, cached1: Option<Entity>,
                                       raw2: RawOutcome, cached2: Option<Entity>)
    ensures var r := Run(p, Initial(d), [StartCalled, TransportCompleted(raw1, cached1), TransformCompleted(0),
                                         TransportCompleted(raw2, cached2), TransformCompleted(0)]);
      var first := TransformResponse(p, Interpret.InterpretResponse(raw1, cached1));
      var second := Interpret.InterpretResponse(raw2, cached2);
      && r.Next?
      && r.state.notifications == [first]
      && (!IsCancellation(first.response) ==>
            r.state.diagnostics == [AlreadyCompletedWarning(first.response, second.response)])
  {
    var s1 := Start(Initial(d)).state;
    var s2 := ResponseReceived(s1, raw1, cached1);
    var s3 := TransformationDone(p, s2, 0);
    var s4 := ResponseReceived(s3, raw2, cached2);
    var s5 := TransformationDone(p, s4, 0);
    assert s4.inTransformation == [];
    assert s5 == s4;
    assert Run(p, s4, [TransformCompleted(0)]) == Next(s5);
    assert Run(p, s3, [TransportCompleted(raw2, cached2), TransformCompleted(0)]) == Next(s5);
    assert Run(p, s2, [TransformCompleted(0), TransportCompleted(raw2, cached2), TransformCompleted(0)]) == Next(s5);
    assert Run(p, s1, [TransportCompleted(raw1, cached1), TransformCompleted(0),
                       TransportCompleted(raw2, cached2), TransformCompleted(0)]) == Next(s5);
  }

  /**
    start(), cancel(), then a late transport completion: the cancellation
    stands, the handle was asked to cancel, and the late response is dropped
    at the first guard, with a note unless it is itself a cancellation.
   */
  lemma LateCompletionAfterCancel(p: Processor, d: Descriptor, raw: RawOutcome, cached: Option<Entity>)
    ensures var r := Run(p, Initial(d), [StartCalled, CancelCalled, TransportCompleted(raw, cached)]);
      var late := Interpret.InterpretResponse(raw, cached).response;
      && r.Next?
      && r.state.notifications == [Cancellation]
      && r.state.networking == Some(Networking(true))
      && r.state.inTransformation == []
      && r.state.diagnostics == (if IsCancellation(late) then [] else [IgnoredAfterCancellation(late)])
  {
    var s1 := Start(Initial(d)).state;
    var s2 := Cancel(s1);
    var s3 := ResponseReceived(s2, raw, cached);
    assert Run(p, s2, [TransportCompleted(raw, cached)]) == Next(s3);
    assert Run(p, s1, [CancelCalled, TransportCompleted(raw, cached)]) == Next(s3);
  }

  /**
    A cancel that lands while the response is being transformed: the
    transformed result is dropped at the second guard, after transformation.
   */
  lemma CancelDuringTransformation(p: Processor, d: Descriptor, raw: RawOutcome, cached: Option<Entity>)
    ensures var r := Run(p, Initial(d), [StartCalled, TransportCompleted(raw, cached), CancelCalled, TransformCompleted(0)]);
      && r.Next?
      && r.state.notifications == [Cancellation]
      && r.state.inTransformation == []
      && var late := TransformResponse(p, Interpret.InterpretResponse(raw, cached)).response;
         r.state.diagnostics == (if IsCancellation(late) then [] else [IgnoredAfterCancellation(late)])
  {
    var s1 := Start(Initial(d)).state;
    var s2 := ResponseReceived(s1, raw, cached);
    var s3 := Cancel(s2);
    var s4 := TransformationDone(p, s3, 0);
    assert Run(p, s3, [TransformCompleted(0)]) == Next(s4);
    assert Run(p, s2, [CancelCalled, TransformCompleted(0)]) == Next(s4);
    assert Run(p, s1, [TransportCompleted(raw, cached), CancelCalled, TransformCompleted(0)]) == Next(s4);
  }

  /** cancel() after the result was delivered fires no callback again and changes nothing. */
  lemma CancelAfterCompletionChangesNothing(p: Processor, s: RequestState)
    requires IsCompleted(s)
    ensures Run(p, s, [CancelCalled]) == Next(s)
  {
  }
}

=== FILE: responses.dfy ===
/**
  The values that flow through a request: what the transport reports, the
  entity a successful response carries, the error a failed one carries, and
  the `ResponseInfo` that is finally broadcast to callbacks.
 */
module Responses {
  import opened Wrappers

  /** Raw bytes, as carried by `NSData`. */
  type Bytes = seq<bv8>

  /** The parts of an `NSHTTPURLResponse` the request looks at. */
  datatype HttpResponse = HttpResponse(statusCode: int, headers: map<string, string>)

  /**
    An error reported by the networking provider. `cancelled` marks the
    provider's own "request was cancelled" error, which the request treats
    as a cancellation rather than as a genuine failure.
   */
  datatype TransportError = TransportError(code: int, cancelled: bool)

  /** Entity content: the raw body as received, or an object a pipeline stage produced from it. */
  datatype Content = Data(bytes: Bytes) | Transformed(description: string)

  /** An immutable snapshot of a successful response (its timestamp is a clock reading and is left out). */
  datatype Entity = Entity(response: Option<HttpResponse>, content: Content)

  /** Why a request failed. */
  datatype Cause =
    | Underlying(error: Option<TransportError>)  // an error status and/or a transport error
    | NoLocalDataFor304                          // "not modified", but nothing cached to reuse
    | RequestCancelled                           // the request was cancelled by its owner

  datatype ErrorInfo = ErrorInfo(
    response: Option<HttpResponse>,
    content: Option<Bytes>,
    userMessage: Option<string>,
    cause: Cause)

  /** Exactly one of success or failure. */
  datatype Response = Success(entity: Entity) | Failure(error: ErrorInfo)

  /**
    A response plus whether it was produced by this round trip (`isNew`) or
    reuses an entity that was already cached (and therefore already transformed).
   */
  datatype ResponseInfo = ResponseInfo(response: Response, isNew: bool)

  /** What the transport hands to the completion callback: `(res, data, err)`. */
  datatype RawOutcome = RawOutcome(
    response: Option<HttpResponse>,
    body: Option<Bytes>,
    error: Option<TransportError>)

  /** A failure that records a cancellation, either the request's own or one the transport reported. */
  predicate IsCancellation(r: Response) {
    && r.Failure?
    && match r.error.cause
       case RequestCancelled => true
       case Underlying(e) => e.Some? && e.value.cancelled
       case NoLocalDataFor304 => false
  }

  /** The value `cancel()` broadcasts. */
  const Cancellation: ResponseInfo :=
    ResponseInfo(Failure(ErrorInfo(None, None, Some("Request cancelled"), RequestCancelled)), true)

}

=== FILE: wrappers.dfy ===
/** The optional-value wrapper used for Swift's `T?` throughout the model. */
module Wrappers {

  /** Swift's `Optional`: `None` is `nil`. */
  datatype Option<+T> = None | Some(value: T) {

    /** The wrapped value, or `default` when `nil` (Swift's `??` operator). */
    function GetOr(default: T): T {
      match this
      case Some(v) => v
      case None => default
    }
  }
}
